=== FILE: README.md ===
# Loop points for WAV files, and the command-line helpers of node-audio-batch

This project is a Dafny model of the one piece of real logic in the
node-audio-batch utilities. That piece is `SetLoop` in `utilities/tools.js`.
It writes sampler loop points into a WAV file by editing the file's bytes
directly. The model turns the code between the file read and the file write
into a pure function. It takes the input bytes and returns one of three
outcomes:

- `Written(bytes)`: the bytes that would be written.
- `Skipped(why)`: one of the two bare `return;` statements, so nothing is written.
- `Threw(fault)`: one of the `ERR_OUT_OF_RANGE` errors that Node raises
  from `readUInt32LE` or `writeUInt32LE`.

The model also covers two pure helpers from the same file. One is the string
that `Command` builds before it starts a process. The other is the loop that
shortens a path in `AbbreviateFilePath`.

The steps of `SetLoop` as modelled:

1. Scan forward for the bytes `fmt `. The loop only looks at windows that
   start below `length - 4`. The sample rate is the little-endian u32 found
   12 bytes after the match (`Scan.FindFirstFrom`, `WaveLoop.SampleRateOffset`).
2. Convert the loop points to sample indices. A missing start becomes 0.
   A missing end becomes `sampleCount - 1`. A given time is
   `floor(rate * seconds)` (`WaveLoop.StartSample`, `WaveLoop.EndSample`).
3. Scan backward from `length - 5` for `smpl`. If it is found at `k`, the
   bytes from `k` onward are cut out: the u32 at `k + 4` plus 8 bytes,
   stopping at the end of the buffer (`WaveLoop.RemoveSmpl`).
4. Build the fixed 68-byte `smpl` chunk and append it (`SamplerChunk.Build`).
5. Find the first `RIFF` and write the new length minus 8 into the next four
   bytes (`WaveLoop.PatchRiffSize`).

The code finds chunk ids by comparing every four-byte window with the id.
It removes the last `smpl` window together with the span its size field
declares, adds no pad byte, and never compares start with end. So a `smpl`
or `RIFF` byte pattern inside audio data is treated as a chunk id, and the
model treats it the same way.

Bytes are `seq<byte>`, where `byte` is an `int` from 0 to 255. Comparing
`buf.toString("utf8", i, i + 4)` with a four-character ASCII id is modelled
as comparing the four bytes with the id's ASCII bytes. The two tests agree,
because UTF-8 decodes a window to those four ASCII characters only when the
window holds exactly those bytes.

Modules: `Wrappers` (Option), `Bytes` (LE u32), `Scan` (window search),
`SamplerChunk`, `WaveLoop` (the transform), `WaveLoopProperties`
(whole-transform lemmas), `CommandLine` and `PathAbbreviation`.

## Model

| member | source | states |
|---|---|---|
| `Bytes.EncodeU32` | utilities/tools.js:328 | the four bytes that `writeUInt32LE` writes, least significant first (the content is tied to `DecodeU32` by `DecodeEncode` and `EncodeDecode`) |
| `Bytes.DecodeU32` | utilities/tools.js:274 | the value that `readUInt32LE` reads from four bytes, least significant first; it is always a u32 |
| `Bytes.DecodeEncode` | utilities/tools.js:308-312 | a value written with `writeUInt32LE` reads back as the same value |
| `Bytes.EncodeDecode` | utilities/tools.js:274 | four bytes read with `readUInt32LE` and written back give the same four bytes |
| `Bytes.ReadU32` | utilities/tools.js:297 | a read fails exactly when the four bytes run past the end; otherwise the value is the LE value of those bytes |
| `Bytes.WriteU32` | utilities/tools.js:328 | a write keeps the length, the four bytes at the offset decode to the value, and every other byte is unchanged |
| `Scan.FindFirstFrom` | utilities/tools.js:266-272 | the forward scan returns the first matching window below `length - 4`; it returns none only if no such window matches |
| `Scan.FindFirst` | utilities/tools.js:266-272 | the forward loops start at offset 0; `FindFirstIsFirst` ties the result to the first matching window below `length - 4` |
| `Scan.FindLast` | utilities/tools.js:284-293 | the backward loop starts at `length - 5`; `FindLastIsLast` ties the result to the last matching window at or below that |
| `Scan.FindLastFrom` | utilities/tools.js:284-293 | the backward scan returns the last matching window at or below its start; it returns none only if no such window matches |
| `Scan.FindFirstIsFirst` | utilities/tools.js:318-325 | the forward search returns `i` if and only if `i` is the first matching window the loop examines |
| `Scan.FindLastIsLast` | utilities/tools.js:283-293 | the backward search returns `k` if and only if `k` is the last matching window at or below `length - 5` |
| `Scan.FindFirstStable` | utilities/tools.js:326-328 | writing bytes after a match leaves the first match where it was |
| `SamplerChunk.WriteId` | utilities/tools.js:307 | writing a four-byte id keeps the length, puts the id at the offset, and leaves every other byte unchanged |
| `SamplerChunk.Build` | utilities/tools.js:305-312 | the chunk is 68 bytes: `smpl` at 0; LE 60 at 4 and at 20; LE 1 at 36; start at 52; end at 56 |
| `SamplerChunk.UnwrittenBytesZero` | utilities/tools.js:305-306 | every byte of the chunk outside those six fields is 0 |
| `SamplerChunk.SizeFieldReadsBack` | utilities/tools.js:297 | reading the size field of a built chunk gives 60, so the span removed later is the chunk's own 68 bytes |
| `SamplerChunk.TailHasNoRiff` | utilities/tools.js:305-306 | no `RIFF` window starts in the chunk's last 7 bytes, because those bytes are 0 |
| `WaveLoop.SampleRateOffset` | utilities/tools.js:265-273 | if no `fmt ` window below `length - 4` matches, the result is none; otherwise the offset is 12 past the first match |
| `WaveLoop.StartSample` | utilities/tools.js:277-278 | an omitted start is 0; a given start is the greatest whole number at or below `rate * seconds` |
| `WaveLoop.EndSample` | utilities/tools.js:279-280 | an omitted end is `sampleCount - 1`; a given end is the greatest whole number at or below `rate * seconds` |
| `WaveLoop.SpanEnd` | utilities/tools.js:297-300 | the removed span ends at `k + 8 + declared size`, or at the buffer end when that is shorter |
| `WaveLoop.RemoveSmpl` | utilities/tools.js:283-302 | with no `smpl`, the input is kept; with the last `smpl` at `k`, the result fails exactly when `k + 8` passes the end; otherwise bytes before `k` and after the span keep their order and only the span is gone |
| `WaveLoop.RemovesLastSmpl` | utilities/tools.js:283-302 | when `k` is the last `smpl` window at or below `length - 5`, the removal fails exactly when `k + 8` passes the end; otherwise the bytes before `k` and from the span's end onward are kept, in order |
| `WaveLoop.KeepsWithoutSmpl` | utilities/tools.js:283-302 | with no `smpl` window at or below `length - 5`, nothing is removed |
| `WaveLoop.PatchRiffSize` | utilities/tools.js:317-328 | with no `RIFF` nothing is written; a length minus 8 outside u32 throws; otherwise the 4 bytes after the first `RIFF` decode to length minus 8 and all other bytes are unchanged |
| `WaveLoop.PatchLands` | utilities/tools.js:314-328 | once the chunk is appended, the first `RIFF` starts at least 8 bytes before the end, so the size write is in bounds |
| `WaveLoop.AppendedPatch` | utilities/tools.js:314-328 | after the chunk is appended, the size write never fails for lack of room, keeps the length, and leaves the first `RIFF` window's size field holding the length minus 8 |
| `WaveLoop.Rewrite` | utilities/tools.js:283-328 | the size write never throws for lack of room; a failure on the old chunk's size field happens exactly when the removal fails; after a successful removal, a start outside u32 throws, and otherwise an end outside u32 throws; a written output is 68 bytes longer than the trimmed input (`RewriteShape` gives its content), and its RIFF size field holds its length minus 8 |
| `WaveLoop.SetLoop` | utilities/tools.js:258-332 | nothing is written for lack of `fmt ` if and only if no `fmt ` window matches; the size write never throws for lack of room; a written output's RIFF size field holds its length minus 8 |
| `WaveLoopProperties.ReadsFirstFormatChunk` | utilities/tools.js:265-280 | the sample rate is the LE u32 at the first `fmt ` match plus 12; the loop points are computed from it; the read throws when those bytes run past the end |
| `WaveLoopProperties.RewriteShape` | utilities/tools.js:314-328 | when the trimmed input starts with `RIFF`, is at least 8 bytes long, and the new length minus 8 fits in a u32, the output is that input with bytes 4-7 set to the new length minus 8, followed by the chunk |
| `WaveLoopProperties.RewriteAppends` | utilities/tools.js:304-328 | the unfolding that `RewriteShape` uses: once the old chunk is removed and both loop points fit in a u32, the outcome is the size patch on the trimmed bytes followed by the new chunk |
| `WaveLoopProperties.AppendsWhenNoSmpl` | utilities/tools.js:283-328 | a file that starts with `RIFF`, is at least 8 bytes long, has no `smpl` window, and whose new length minus 8 fits in a u32 comes out as itself plus the chunk, with only the size field changed, and exactly 68 bytes longer |
| `WaveLoopProperties.ReplacesLastSmpl` | utilities/tools.js:295-328 | for a RIFF file whose last `smpl` is at `k`, when `k` is at least 8, its size field lies inside the file, and the new length minus 8 fits in a u32: the output keeps the bytes before `k` and after the declared span in order, adds the chunk at the end and sets the size field |
| `WaveLoopProperties.SpliceKeepsHeader` | utilities/tools.js:298-301 | cutting a span out at or after offset 8 keeps the 8-byte header and keeps what follows it in order |
| `WaveLoopProperties.PatchesHeader` | utilities/tools.js:318-328 | with `RIFF` at offset 0, the size write goes to bytes 4-7 |
| `WaveLoopProperties.TrimKeepsHeader` | utilities/tools.js:295-302 | removing the old chunk keeps the 8-byte RIFF header when no `smpl` window starts inside it |
| `WaveLoopProperties.OwnChunkRemoved` | utilities/tools.js:295-312 | when the chunk holds no `smpl` window besides its own id (`OwnIdOnly`), a chunk appended last is the last `smpl` window, and removing it gives back exactly what came before it |
| `WaveLoopProperties.SmallLoopPointsOwnIdOnly` | utilities/tools.js:305-312 | for loop points below 2^24, the chunk contains no `smpl` window except its own id |
| `WaveLoopProperties.RewriteIdempotent` | utilities/tools.js:283-328 | for a file with `RIFF` at offset 0, at least 8 bytes long, with no `smpl` window at offsets 4-7, and loop points whose chunk holds no `smpl` window besides its own id: when the old chunk's size field can be read and the new length fits in a u32, the rewrite writes, and rewriting its output again with the same loop points gives the same bytes |
| `WaveLoopProperties.RewriteTwice` | utilities/tools.js:283-328 | for trimmed bytes that start with `RIFF`, are at least 8 bytes long, and whose new length minus 8 fits in a u32, and for a chunk that holds no `smpl` window besides its own id (`OwnIdOnly`): rewriting those bytes, with the size field already set and the chunk appended, using the same loop points, writes the same bytes back |
| `WaveLoopProperties.HalfSecondExample` | utilities/tools.js:277-280 | at 44100 Hz, 0.5 s is sample 22050 and 1.5 s is sample 66150; an omitted end for 88200 samples is 88199 |
| `CommandLine.Expand` | utilities/tools.js:583-586 | an array argument contributes its elements; any other argument contributes itself as one token |
| `CommandLine.Flatten` | utilities/tools.js:580-587 | no arguments give no tokens, and every token comes from one of the arguments |
| `CommandLine.FlattenAppend` | utilities/tools.js:581-587 | flattening a concatenation of argument lists concatenates their tokens, so tokens keep argument order |
| `CommandLine.FlattenSingles` | utilities/tools.js:586 | with no array arguments, token `i` is the text of argument `i` |
| `CommandLine.Quote` | utilities/tools.js:589-595 | a token with no space is unchanged; a token with a space gets a `"` added at the front and at the back unless one is already there, so it starts and ends with `"` |
| `CommandLine.QuoteIdempotent` | utilities/tools.js:590-594 | quoting a quoted token changes nothing |
| `CommandLine.QuoteAll` | utilities/tools.js:589 | every token is quoted in place and the count does not change |
| `CommandLine.Join` | utilities/tools.js:596 | `join(" ")`: a single token is the text itself |
| `CommandLine.CommandText` | utilities/tools.js:580-596 | the text handed to the shell: the flattened arguments, quoted, joined by single spaces |
| `CommandLine.JoinLength` | utilities/tools.js:596 | the command line is as long as its tokens plus one space between each pair |
| `CommandLine.TokenizeQuoted` | utilities/tools.js:588-595 | a non-empty token with no `"`, once quoted, reads back as exactly one word |
| `CommandLine.TokenizeJoined` | utilities/tools.js:588-596 | splitting the joined, quoted tokens into words gives the tokens back, spaces inside them included |
| `CommandLine.CommandReadsBack` | utilities/tools.js:577-596 | reading `Command`'s text as words gives back the flattened arguments, if none is empty or holds `"` |
| `PathAbbreviation.Concat` | utilities/tools.js:563-570 | `join("")`: no parts give the empty text; otherwise the text starts with the first part |
| `PathAbbreviation.Remaining` | utilities/tools.js:565-566 | after `k` removals the parts are the first part followed by the parts after index `k`, `k` fewer than before |
| `PathAbbreviation.Shrinks` | utilities/tools.js:562-564 | the loop condition after `k` removals: the joined text, plus 5 once something is removed, is longer than `characters`, and more than 3 parts remain; `Abbreviate` stops at the least `k` where it fails |
| `PathAbbreviation.Abbreviate` | utilities/tools.js:559-571 | only the part after the first is removed, one at a time; the removal count is the least count at which the loop condition fails; the first part and the last two parts stay; `" ... "` is inserted after the first part exactly when something was removed |
| `PathAbbreviation.RemainingStep` | utilities/tools.js:565 | each `splice(1, 1)` drops the second of the parts that remain, so after `k` passes the parts are the first one and those after index `k` |
| `PathAbbreviation.FitsWhenPartsRemain` | utilities/tools.js:562-565 | if the loop stops while more than 3 parts remain, the text, ellipsis included, fits within `characters` |

## Left out

- Reading and writing the files (utilities/tools.js:262, :331): the model maps input bytes to the outcome. The `undefined`-path guard at :259 is left out too.
- `GetSamples` and `GetLength` (:41-52) ask sox for the sample count. The count is the `sampleCount` parameter of `WaveLoop.SetLoop`. It is used only when the end is omitted.
- WaveLoop.StartSample: uses exact rational arithmetic for `Math.floor(sampleRate * start)`, because modelling IEEE double rounding is out of scope. Non-numeric or NaN arguments are not modelled.
- WaveLoop.EndSample: uses exact rational arithmetic for `Math.floor(sampleRate * end)`, for the same reason. Non-numeric or NaN arguments, and a `sampleCount` that is not a whole number, are not modelled.
- WaveLoopProperties.RewriteIdempotent: proved for the container step with fixed sample indices, not for the whole `SetLoop`. Whether the second run sees the same sample rate depends on where `fmt ` sits relative to the removed span. It also assumes `RIFF` at offset 0, no `smpl` window at offsets 4-7, and a chunk with no `smpl` window besides its own id (true for loop points below 2^24, see `SmallLoopPointsOwnIdOnly`). Without the last hypothesis the claim fails: a start of 0x6C706D73 spells `smpl` at chunk offset 52, so a second run would cut there.
- PathAbbreviation.Abbreviate: a string's length is its number of Unicode scalar values, while JavaScript's `.length` (:563) counts UTF-16 code units. For a path with characters outside the Basic Multilingual Plane, the model's text is shorter, so it can drop fewer parts than the code does.
- The sox, lame, flac and vorbiscomment wrappers (Cut, Mix, Gain, Normalize, the Trim and Fade variants, Pad, and the format converters, :55-255 and :339-466) only assemble command lines.
- Running the command with `child_process.execSync` (:597). `String(x)` on non-string arguments is not modelled: arguments arrive as text.
- Filesystem helpers (:473-527) and the Node `path` wrappers, `GetFilePathParts` among them (:530-556). `PathAbbreviation.Abbreviate` takes the parts list as input.
- `BatchProcess`, `Header`, `Echo`, `RepeatCharacters` and `Pause` (:24-38, :600-682) only print to the console and drive the command line.
- `CommandLine.Tokenize` is a simple reference for how a shell splits words. It is not a model of any particular shell's quoting rules.

=== FILE: bytes.dfy ===
/** Octets and the unsigned 32-bit little-endian fields that a Node `Buffer`
    reads and writes with `readUInt32LE` / `writeUInt32LE`. */
module Bytes {

  import opened Wrappers

  /** An octet, as held in one slot of a Node `Buffer`. */
  type byte = x: int | 0 <= x < 256

  /** One more than the largest value `writeUInt32LE` accepts. */
  const U32_LIMIT: int := 0x1_0000_0000

  predicate IsU32(v: int) {
    0 <= v < U32_LIMIT
  }

  /** The four bytes of `v`, least significant first. */
  function EncodeU32(v: int): (r: seq<byte>)
    requires IsU32(v)
    ensures |r| == 4
  {
    [v % 256, (v / 0x100) % 256, (v / 0x1_0000) % 256, v / 0x100_0000]
  }

  /** The value of four bytes read least significant first. */
  function DecodeU32(s: seq<byte>): (v: int)
    requires |s| == 4
    ensures IsU32(v)
  {
    s[0] as int + 0x100 * (s[1] as int) + 0x1_0000 * (s[2] as int) + 0x100_0000 * (s[3] as int)
  }

  /** Decoding an encoded value gives the value back. */
  lemma DecodeEncode(v: int)
    requires IsU32(v)
    ensures DecodeU32(EncodeU32(v)) == v
  {
    var a := v / 0x100;
    var b := a / 0x100;
    var c := b / 0x100;
    SplitLowByte(v, v % 0x100, a);
    SplitLowByte(a, a % 0x100, b);
    SplitLowByte(b, b % 0x100, c);
    assert v / 0x1_0000 == b;
    assert v / 0x100_0000 == c;
  }

  /** Encoding the value of four bytes gives the same four bytes back. */
  lemma EncodeDecode(s: seq<byte>)
    requires |s| == 4
    ensures EncodeU32(DecodeU32(s)) == s
  {
    var v := DecodeU32(s);
    var b: int := s[2] as int + 0x100 * (s[3] as int);
    var a: int := s[1] as int + 0x100 * b;
    SplitLowByte(v, s[0] as int, a);
    SplitLowByte(a, s[1] as int, b);
    SplitLowByte(b, s[2] as int, s[3] as int);
    assert v / 0x1_0000 == b;
    assert v / 0x100_0000 == s[3] as int;
  }

  lemma SplitLowByte(v: int, lo: int, hi: int)
    requires 0 <= lo < 256 && v == lo + 0x100 * hi
    ensures v / 0x100 == hi && v % 0x100 == lo
  {
  }

  /** `buf.readUInt32LE(off)`: the value of the four bytes at `off`, or
      `None` where Node throws because the field runs past the end. */
  function ReadU32(buf: seq<byte>, off: nat): (r: Option<int>)
    ensures r.None? <==> off + 4 > |buf|
    ensures r.Some? ==> IsU32(r.value) && EncodeU32(r.value) == buf[off..off + 4]
  {
    if off + 4 > |buf| then None
    else
      var v := DecodeU32(buf[off..off + 4]);
      EncodeDecode(buf[off..off + 4]);
      Some(v)
  }

  /** `buf.writeUInt32LE(v, off)` on an in-range offset and value. */
  function WriteU32(buf: seq<byte>, off: nat, v: int): (r: seq<byte>)
    requires off + 4 <= |buf| && IsU32(v)
    ensures |r| == |buf|
    ensures DecodeU32(r[off..off + 4]) == v
    ensures forall i :: 0 <= i < |buf| && !(off <= i < off + 4) ==> r[i] == buf[i]
  {
    DecodeEncode(v);
    var r := buf[..off] + EncodeU32(v) + buf[off + 4..];
    assert r[off..off + 4] == EncodeU32(v);
    r
  }
}

=== FILE: command_line.dfy ===
/** The string that `Command` hands to the shell: its arguments flattened one
    level, every token holding a space wrapped in double quotes, and the
    tokens joined by single spaces. Running the string is left out. */
module CommandLine {

  /** One argument of `Command`: a plain value, already turned into text, or
      an array whose elements are expanded in place. */
  datatype Arg = Single(text: string) | Many(items: seq<string>)

  /** The tokens one argument contributes. */
  function Expand(a: Arg): seq<string> {
    match a
    case Single(t) => [t]
    case Many(items) => items
  }

  /** The `commands` list built by the first loop of `Command`. */
  function Flatten(args: seq<Arg>): (r: seq<string>)
    ensures |args| == 0 ==> r == []
    ensures forall t :: t in r ==> exists a :: a in args && t in Expand(a)
  {
    if |args| == 0 then [] else Expand(args[0]) + Flatten(args[1..])
  }

  /** Flattening distributes over concatenation of argument lists, so the
      tokens come out in argument order. */
  lemma {:induction false} FlattenAppend(a: seq<Arg>, b: seq<Arg>)
    ensures Flatten(a + b) == Flatten(a) + Flatten(b)
    decreases |a|
  {
    if |a| == 0 {
      assert a + b == b;
    } else {
      assert (a + b)[1..] == a[1..] + b;
      FlattenAppend(a[1..], b);
    }
  }

  /** Without array arguments, each argument is exactly one token. */
  lemma {:induction false} FlattenSingles(args: seq<Arg>)
    requires forall i :: 0 <= i < |args| ==> args[i].Single?
    ensures |Flatten(args)| == |args|
    ensures forall i :: 0 <= i < |args| ==> Flatten(args)[i] == args[i].text
    decreases |args|
  {
    if |args| > 0 {
      FlattenSingles(args[1..]);
    }
  }

  /** The second loop of `Command` on one token: if it holds a space, add a
      double quote at the front unless one is there, then at the back unless
      one is there. */
  function Quote(t: string): (r: string)
    ensures ' ' !in t ==> r == t
    ensures ' ' in t ==> r == (if t[0] == '"' then "" else "\"") + t + (if t[|t| - 1] == '"' then "" else "\"")
    ensures ' ' in t ==> 2 <= |r| && r[0] == '"' && r[|r| - 1] == '"'
  {
    if ' ' !in t then t
    else
      var front := if t[0] != '"' then "\"" + t else t;
      if front[|front| - 1] != '"' then front + "\"" else front
  }

  /** Quoting an already quoted token changes nothing. */
  lemma QuoteIdempotent(t: string)
    ensures Quote(Quote(t)) == Quote(t)
  {
    if ' ' in t {
      var q := Quote(t);
      var i :| 0 <= i < |t| && t[i] == ' ';
      var k := if t[0] == '"' then i else i + 1;
      assert q[k] == ' ';
    }
  }

  function QuoteAll(ts: seq<string>): (r: seq<string>)
    ensures |r| == |ts|
    ensures forall i :: 0 <= i < |ts| ==> r[i] == Quote(ts[i])
  {
    if |ts| == 0 then [] else [Quote(ts[0])] + QuoteAll(ts[1..])
  }

  /** `Array.prototype.join(" ")`. */
  function Join(ts: seq<string>): (r: string)
    ensures |ts| == 1 ==> r == ts[0]
  {
    if |ts| == 0 then ""
    else if |ts| == 1 then ts[0]
    else ts[0] + " " + Join(ts[1..])
  }

  /** The text `Command` passes to `execSync`. */
  function CommandText(args: seq<Arg>): string {
    Join(QuoteAll(Flatten(args)))
  }

  /** The joined text is as long as its tokens plus one separator between
      each neighbouring pair. */
  lemma {:induction false} JoinLength(ts: seq<string>)
    requires |ts| > 0
    ensures |Join(ts)| == SumLengths(ts) + |ts| - 1
    decreases |ts|
  {
    if |ts| > 1 {
      JoinLength(ts[1..]);
    }
  }

  function SumLengths(ts: seq<string>): nat {
    if |ts| == 0 then 0 else |ts[0]| + SumLengths(ts[1..])
  }

  /** The first position of `c` in `s`, or `|s|` when there is none. */
  function IndexOf(s: string, c: char): (n: nat)
    ensures n <= |s|
    ensures n < |s| ==> s[n] == c
    ensures forall i :: 0 <= i < n ==> s[i] != c
  {
    if |s| == 0 || s[0] == c then 0 else 1 + IndexOf(s[1..], c)
  }

  /** A reading of a command line into words, as a shell splits it: spaces
      separate words, and a word in double quotes may hold spaces; the
      quotes themselves are not part of the word. */
  function Tokenize(s: string): seq<string>
    decreases |s|
  {
    if |s| == 0 then []
    else if s[0] == ' ' then Tokenize(s[1..])
    else if s[0] == '"' then
      var n := IndexOf(s[1..], '"');
      if n == |s| - 1 then [s[1..]] else [s[1..n + 1]] + Tokenize(s[n + 2..])
    else
      var n := IndexOf(s, ' ');
      [s[..n]] + Tokenize(s[n..])
  }

  /** `IndexOf` finds `c` at `k` when `k` is where it first occurs, or
      where `s` ends if it does not occur. */
  lemma IndexOfAt(s: string, c: char, k: nat)
    requires k <= |s| && (k < |s| ==> s[k] == c)
    requires forall i :: 0 <= i < k ==> s[i] != c
    ensures IndexOf(s, c) == k
  {
  }

  /** A token with no space reads back as one bare word. */
  lemma TokenizeBare(t: string, tail: string)
    requires |t| > 0 && '"' !in t && ' ' !in t
    requires |tail| == 0 || tail[0] == ' '
    ensures Tokenize(t + tail) == [t] + Tokenize(tail)
  {
    var s := t + tail;
    assert s[0] == t[0];
    forall i | 0 <= i < |t|
      ensures s[i] != ' '
    {
      assert s[i] == t[i];
    }
    IndexOfAt(s, ' ', |t|);
    assert s[..|t|] == t;
    assert s[|t|..] == tail;
  }

  /** A token with a space, wrapped in quotes, reads back as one word. */
  lemma TokenizeWrapped(t: string, tail: string)
    requires '"' !in t
    requires |tail| == 0 || tail[0] == ' '
    ensures Tokenize("\"" + t + "\"" + tail) == [t] + Tokenize(tail)
  {
    var s := "\"" + t + "\"" + tail;
    var body := s[1..];
    assert body == t + "\"" + tail;
    forall i | 0 <= i < |t|
      ensures body[i] != '"'
    {
      assert body[i] == t[i];
    }
    assert body[|t|] == '"';
    IndexOfAt(body, '"', |t|);
    assert s[0] == '"' && |t| != |s| - 1;
    assert Tokenize(s) == [s[1..|t| + 1]] + Tokenize(s[|t| + 2..]);
    assert s[1..|t| + 1] == t;
    assert s[|t| + 2..] == tail;
  }

  /** A token without double quotes, once quoted, reads back as one word
      when followed by a space or by nothing. */
  lemma TokenizeQuoted(t: string, tail: string)
    requires |t| > 0 && '"' !in t
    requires |tail| == 0 || tail[0] == ' '
    ensures Tokenize(Quote(t) + tail) == [t] + Tokenize(tail)
  {
    if ' ' in t {
      assert Quote(t) == "\"" + t + "\"";
      TokenizeWrapped(t, tail);
    } else {
      TokenizeBare(t, tail);
    }
  }

  /** The point of the quoting: when no token is empty or holds a double
      quote, a shell reading the command line gets back exactly the
      flattened arguments, spaces inside tokens included. */
  lemma {:induction false} TokenizeJoined(ts: seq<string>)
    requires forall i :: 0 <= i < |ts| ==> |ts[i]| > 0 && '"' !in ts[i]
    ensures Tokenize(Join(QuoteAll(ts))) == ts
    decreases |ts|
  {
    if |ts| == 1 {
      TokenizeQuoted(ts[0], "");
      assert Quote(ts[0]) + "" == Quote(ts[0]);
    } else if |ts| > 1 {
      var q := QuoteAll(ts);
      assert q[1..] == QuoteAll(ts[1..]);
      var rest := Join(q[1..]);
      assert Join(q) == Quote(ts[0]) + (" " + rest);
      TokenizeQuoted(ts[0], " " + rest);
      assert (" " + rest)[1..] == rest;
      TokenizeJoined(ts[1..]);
    }
  }

  /** The same, for the arguments of `Command`. */
  lemma CommandReadsBack(args: seq<Arg>)
    requires forall t :: t in Flatten(args) ==> |t| > 0 && '"' !in t
    ensures Tokenize(CommandText(args)) == Flatten(args)
  {
    TokenizeJoined(Flatten(args));
  }
}

=== FILE: path_abbreviation.dfy ===
/** `AbbreviateFilePath`: shorten a path for display by dropping the parts
    after the drive one at a time and marking the gap with " ... ". The split
    of the path into parts (Node's `path` module) is left out; the parts list
    is the input. */
module PathAbbreviation {

  /** What marks the dropped parts; it adds 5 characters. */
  const ELLIPSIS: string := " ... "

  /** `parts.join("")`. */
  function Concat(parts: seq<string>): (r: string)
    ensures |parts| == 0 ==> r == ""
    ensures |parts| > 0 ==> |parts[0]| <= |r| && r[..|parts[0]|] == parts[0]
  {
    if |parts| == 0 then "" else parts[0] + Concat(parts[1..])
  }

  lemma {:induction false} ConcatAppend(a: seq<string>, b: seq<string>)
    ensures Concat(a + b) == Concat(a) + Concat(b)
    decreases |a|
  {
    if |a| == 0 {
      assert a + b == b;
    } else {
      assert (a + b)[1..] == a[1..] + b;
      ConcatAppend(a[1..], b);
    }
  }

  /** The parts left after `k` calls of `parts.splice(1, 1)`. */
  function Remaining(parts: seq<string>, k: nat): (r: seq<string>)
    requires k == 0 || k < |parts|
    ensures k > 0 ==> |r| == |parts| - k && r[0] == parts[0] && r[1..] == parts[k + 1..]
  {
    if k == 0 then parts else [parts[0]] + parts[k + 1..]
  }

  /** One more `splice(1, 1)` drops the second of the remaining parts. */
  lemma RemainingStep(parts: seq<string>, k: nat)
    requires k == 0 || k < |parts|
    requires |Remaining(parts, k)| > 3
    ensures k + 1 < |parts|
    ensures Remaining(parts, k + 1) == [Remaining(parts, k)[0]] + Remaining(parts, k)[2..]
  {
    var ps := Remaining(parts, k);
    if k > 0 {
      assert ps[2..] == ps[1..][1..];
    }
  }

  /** The loop condition after `k` removals: the text (with room for the
      ellipsis once something is gone) is longer than `limit`, and more than
      three parts are left. */
  predicate Shrinks(parts: seq<string>, k: nat, limit: int) {
    && (k == 0 || k < |parts|)
    && |Concat(Remaining(parts, k))| + (if k > 0 then |ELLIPSIS| else 0) > limit
    && |Remaining(parts, k)| > 3
  }

  /** The display text, and how many parts were dropped to get it. */
  method Abbreviate(parts: seq<string>, characters: int) returns (text: string, dropped: nat)
    ensures dropped == 0 ==> text == Concat(parts)
    ensures dropped > 0 ==> dropped + 3 <= |parts|
    ensures dropped > 0 ==> text == Concat([parts[0], ELLIPSIS] + parts[dropped + 1..])
    ensures forall j :: 0 <= j < dropped ==> Shrinks(parts, j, characters)
    ensures !Shrinks(parts, dropped, characters)
  {
    var ps := parts;
    var abbreviated := false;
    dropped := 0;
    while |Concat(ps)| + (if abbreviated then |ELLIPSIS| else 0) > characters && |ps| > 3
      invariant dropped == 0 || dropped + 3 <= |parts|
      invariant ps == Remaining(parts, dropped)
      invariant abbreviated <==> dropped > 0
      invariant forall j :: 0 <= j < dropped ==> Shrinks(parts, j, characters)
      decreases |ps|
    {
      assert Shrinks(parts, dropped, characters);
      RemainingStep(parts, dropped);
      ps := [ps[0]] + ps[2..];
      abbreviated := true;
      dropped := dropped + 1;
    }
    if abbreviated {
      assert ps[0] == parts[0] && ps[1..] == parts[dropped + 1..];
      ps := [ps[0], ELLIPSIS] + ps[1..];
    }
    text := Concat(ps);
  }

  /** When the loop stopped with parts to spare, the text fits: its length
      is at most `characters`. */
  lemma FitsWhenPartsRemain(parts: seq<string>, characters: int, dropped: nat)
    requires dropped == 0 || dropped + 3 <= |parts|
    requires !Shrinks(parts, dropped, characters)
    requires |Remaining(parts, dropped)| > 3
    ensures dropped == 0 ==> |Concat(parts)| <= characters
    ensures dropped > 0 ==> |Concat([parts[0], ELLIPSIS] + parts[dropped + 1..])| <= characters
  {
    if dropped > 0 {
      ConcatAppend([parts[0]], parts[dropped + 1..]);
      ConcatAppend([parts[0], ELLIPSIS], parts[dropped + 1..]);
      assert Concat([parts[0], ELLIPSIS]) == parts[0] + ELLIPSIS + "";
      assert Concat([parts[0]]) == parts[0] + "";
    }
  }
}

=== FILE: sampler_chunk.dfy ===
/** The fixed 68-byte `smpl` (sampler) chunk that `SetLoop` appends: a
    zero-filled buffer with six fields written into it. */
module SamplerChunk {

  import opened Wrappers
  import opened Bytes
  import opened Scan

  /** Header (8 bytes) plus the declared payload of 60 bytes. */
  const CHUNK_LENGTH: nat := 68
  /** The payload length written into the chunk's size field. */
  const PAYLOAD_SIZE: nat := 60
  /** MIDI unity note 60, middle C. */
  const UNITY_NOTE: nat := 60
  /** The number of sample loops the chunk describes. */
  const LOOP_COUNT: nat := 1

  /** Byte offsets of the fields the builder writes. */
  const SIZE_AT: nat := 4
  const UNITY_NOTE_AT: nat := 20
  const LOOP_COUNT_AT: nat := 36
  const LOOP_START_AT: nat := 52
  const LOOP_END_AT: nat := 56

  /** Whether offset `i` of the chunk lies in a field the builder writes;
      every other byte keeps the zero that `Buffer.alloc` put there. */
  predicate IsFieldByte(i: int) {
    || 0 <= i < 4
    || SIZE_AT <= i < SIZE_AT + 4
    || UNITY_NOTE_AT <= i < UNITY_NOTE_AT + 4
    || LOOP_COUNT_AT <= i < LOOP_COUNT_AT + 4
    || LOOP_START_AT <= i < LOOP_START_AT + 4
    || LOOP_END_AT <= i < LOOP_END_AT + 4
  }

  /** `buf.write(id, off, 4)` for a four-byte ASCII id. */
  function WriteId(buf: seq<byte>, off: nat, id: seq<byte>): (r: seq<byte>)
    requires |id| == 4 && off + 4 <= |buf|
    ensures |r| == |buf| && r[off..off + 4] == id
    ensures forall i :: 0 <= i < |buf| && !(off <= i < off + 4) ==> r[i] == buf[i]
  {
    buf[..off] + id + buf[off + 4..]
  }

  /** The chunk for loop points `start` and `end` (sample indices), built as
      `SetLoop` builds it: allocate 68 zero bytes, then write each field. */
  function Build(start: int, end: int): (r: seq<byte>)
    requires IsU32(start) && IsU32(end)
    ensures |r| == CHUNK_LENGTH
    ensures r[0..4] == SMPL
    ensures DecodeU32(r[SIZE_AT..SIZE_AT + 4]) == PAYLOAD_SIZE
    ensures DecodeU32(r[UNITY_NOTE_AT..UNITY_NOTE_AT + 4]) == UNITY_NOTE
    ensures DecodeU32(r[LOOP_COUNT_AT..LOOP_COUNT_AT + 4]) == LOOP_COUNT
    ensures DecodeU32(r[LOOP_START_AT..LOOP_START_AT + 4]) == start
    ensures DecodeU32(r[LOOP_END_AT..LOOP_END_AT + 4]) == end
  {
    var zeros: seq<byte> := seq(CHUNK_LENGTH, _ => 0);
    var c0 := WriteId(zeros, 0, SMPL);
    var c1 := WriteU32(c0, SIZE_AT, PAYLOAD_SIZE);
    var c2 := WriteU32(c1, UNITY_NOTE_AT, UNITY_NOTE);
    var c3 := WriteU32(c2, LOOP_COUNT_AT, LOOP_COUNT);
    var c4 := WriteU32(c3, LOOP_START_AT, start);
    var c5 := WriteU32(c4, LOOP_END_AT, end);
    assert c5[0..4] == c0[0..4];
    assert c5[SIZE_AT..SIZE_AT + 4] == c1[SIZE_AT..SIZE_AT + 4];
    assert c5[UNITY_NOTE_AT..UNITY_NOTE_AT + 4] == c2[UNITY_NOTE_AT..UNITY_NOTE_AT + 4];
    assert c5[LOOP_COUNT_AT..LOOP_COUNT_AT + 4] == c3[LOOP_COUNT_AT..LOOP_COUNT_AT + 4];
    assert c5[LOOP_START_AT..LOOP_START_AT + 4] == c4[LOOP_START_AT..LOOP_START_AT + 4];
    c5
  }

  /** Every byte outside the six written fields keeps the zero that
      `Buffer.alloc` put there. */
  lemma UnwrittenBytesZero(start: int, end: int)
    requires IsU32(start) && IsU32(end)
    ensures forall i :: 0 <= i < CHUNK_LENGTH && !IsFieldByte(i) ==> Build(start, end)[i] == 0
  {
    var zeros: seq<byte> := seq(CHUNK_LENGTH, _ => 0);
    var c0 := WriteId(zeros, 0, SMPL);
    var c1 := WriteU32(c0, SIZE_AT, PAYLOAD_SIZE);
    var c2 := WriteU32(c1, UNITY_NOTE_AT, UNITY_NOTE);
    var c3 := WriteU32(c2, LOOP_COUNT_AT, LOOP_COUNT);
    var c4 := WriteU32(c3, LOOP_START_AT, start);
    var c5 := WriteU32(c4, LOOP_END_AT, end);
    assert Build(start, end) == c5;
    forall i | 0 <= i < CHUNK_LENGTH && !IsFieldByte(i)
      ensures c5[i] == 0
    {
      assert c5[i] == c4[i] == c3[i] == c2[i] == c1[i] == c0[i] == zeros[i];
    }
  }

  /** Reading the chunk's size field back, as `SetLoop` does when it meets a
      `smpl` chunk of its own making, gives 60: the removed span is exactly
      the 68 bytes of the chunk. */
  lemma SizeFieldReadsBack(start: int, end: int)
    requires IsU32(start) && IsU32(end)
    ensures ReadU32(Build(start, end), SIZE_AT) == Some(PAYLOAD_SIZE)
  {
    var c := Build(start, end);
    EncodeDecode(c[SIZE_AT..SIZE_AT + 4]);
  }

  /** The last eight bytes of the chunk are zero, so no "RIFF" window (whose
      first byte is not zero) can start in the last seven bytes. */
  lemma TailHasNoRiff(start: int, end: int, j: int)
    requires IsU32(start) && IsU32(end)
    requires CHUNK_LENGTH - 8 < j
    ensures !MatchAt(Build(start, end), j, RIFF)
  {
    var c := Build(start, end);
    if j + 4 <= |c| {
      assert c[j] == 0 by {
        UnwrittenBytesZero(start, end);
        assert !IsFieldByte(j);
      }
      assert c[j..j + 4][0] != RIFF[0];
    }
  }
}

=== FILE: scan.dfy ===
/** Finding a four-character ASCII chunk id in a byte buffer the way `SetLoop`
    does it: by comparing every four-byte window with the id, forward for
    `fmt ` and `RIFF`, backward for `smpl`. No chunk structure is consulted. */
module Scan {

  import opened Wrappers
  import opened Bytes

  /** The ASCII bytes of "fmt ". */
  const FMT: seq<byte> := [0x66, 0x6D, 0x74, 0x20]
  /** The ASCII bytes of "smpl". */
  const SMPL: seq<byte> := [0x73, 0x6D, 0x70, 0x6C]
  /** The ASCII bytes of "RIFF". */
  const RIFF: seq<byte> := [0x52, 0x49, 0x46, 0x46]

  /** The window of `buf` starting at `i` spells `id`. A window that decodes
      (as UTF-8) to a four-character ASCII string holds exactly those four
      ASCII bytes, so comparing decoded strings is comparing bytes. */
  predicate MatchAt(buf: seq<byte>, i: int, id: seq<byte>) {
    0 <= i && i + |id| <= |buf| && buf[i..i + |id|] == id
  }

  /** The forward loop `for (i = from; i < buf.length - 4; i++)`: the first
      window at or after `from` that spells `id`. The window that starts at
      `buf.length - 4` is never examined. */
  function FindFirstFrom(buf: seq<byte>, id: seq<byte>, from: nat): (r: Option<nat>)
    requires |id| == 4
    ensures r.Some? ==> from <= r.value < |buf| - 4 && MatchAt(buf, r.value, id)
    ensures r.Some? ==> forall j :: from <= j < r.value ==> !MatchAt(buf, j, id)
    ensures r.None? ==> forall j :: from <= j < |buf| - 4 ==> !MatchAt(buf, j, id)
    decreases |buf| - from
  {
    if from >= |buf| - 4 then None
    else if buf[from..from + 4] == id then Some(from)
    else FindFirstFrom(buf, id, from + 1)
  }

  function FindFirst(buf: seq<byte>, id: seq<byte>): (r: Option<nat>)
    requires |id| == 4
  {
    FindFirstFrom(buf, id, 0)
  }

  /** The backward loop `for (i = from; i >= 0; i--)`: the last window at or
      before `from` that spells `id`. */
  function FindLastFrom(buf: seq<byte>, id: seq<byte>, from: int): (r: Option<nat>)
    requires |id| == 4
    requires from < |buf| - 3
    ensures r.Some? ==> r.value <= from && MatchAt(buf, r.value, id)
    ensures r.Some? ==> forall j :: r.value < j <= from ==> !MatchAt(buf, j, id)
    ensures r.None? ==> forall j :: 0 <= j <= from ==> !MatchAt(buf, j, id)
    decreases from + 1
  {
    if from < 0 then None
    else if buf[from..from + 4] == id then Some(from)
    else FindLastFrom(buf, id, from - 1)
  }

  /** The backward search of `SetLoop`, which starts at `buf.length - 5`. */
  function FindLast(buf: seq<byte>, id: seq<byte>): (r: Option<nat>)
    requires |id| == 4
  {
    FindLastFrom(buf, id, |buf| - 5)
  }

  /** `i` is the first window the forward loop examines that spells `id`. */
  predicate IsFirst(buf: seq<byte>, i: int, id: seq<byte>) {
    i < |buf| - 4 && MatchAt(buf, i, id) && forall j :: 0 <= j < i ==> !MatchAt(buf, j, id)
  }

  /** `k` is the first window the backward loop examines that spells `id`. */
  predicate IsLast(buf: seq<byte>, k: int, id: seq<byte>) {
    k <= |buf| - 5 && MatchAt(buf, k, id) && forall j :: k < j <= |buf| - 5 ==> !MatchAt(buf, j, id)
  }

  /** The forward search returns `i` exactly when `i` is the first matching
      window below `|buf| - 4`. */
  lemma FindFirstIsFirst(buf: seq<byte>, id: seq<byte>, i: nat)
    requires |id| == 4
    ensures FindFirst(buf, id) == Some(i) <==> IsFirst(buf, i, id)
  {
  }

  /** The backward search returns `k` exactly when `k` is the last matching
      window at or below `|buf| - 5`. */
  lemma FindLastIsLast(buf: seq<byte>, id: seq<byte>, k: nat)
    requires |id| == 4
    ensures FindLast(buf, id) == Some(k) <==> IsLast(buf, k, id)
  {
  }

  /** Overwriting bytes at `lo` and above leaves the first match alone when it
      ends at or before `lo`. */
  lemma FindFirstStable(buf: seq<byte>, buf': seq<byte>, id: seq<byte>, i: nat, lo: nat)
    requires |id| == 4 && |buf'| == |buf|
    requires FindFirst(buf, id) == Some(i) && i + 4 <= lo <= |buf|
    requires forall j :: 0 <= j < lo ==> buf'[j] == buf[j]
    ensures FindFirst(buf', id) == Some(i)
  {
    assert buf'[i..i + 4] == buf[i..i + 4];
    forall j | 0 <= j < i
      ensures !MatchAt(buf', j, id)
    {
      assert !MatchAt(buf, j, id);
      assert buf'[j..j + 4] == buf[j..j + 4];
    }
    FindFirstIsFirst(buf', id, i);
  }
}

=== FILE: set_loop.dfy ===
/** `SetLoop`: embed loop points in a WAV file by rewriting its bytes. The
    file read and write are left to the caller; this module is the transform
    between them, from the input bytes to what would be written (or why
    nothing is). */
module WaveLoop {

  import opened Wrappers
  import opened Bytes
  import opened Scan
  import SamplerChunk

  /** The two bare `return;` statements: nothing is written. */
  datatype Skip = NoFormatChunk | NoRiffHeader

  /** The `ERR_OUT_OF_RANGE` errors Node raises from `readUInt32LE` (an
      offset whose four bytes run past the end) and `writeUInt32LE` (a value
      outside 0 .. 2^32 - 1, or an offset past the end). */
  datatype Fault =
    | SampleRateOutOfBounds
    | SmplSizeOutOfBounds
    | StartOutOfRange
    | EndOutOfRange
    | FileSizeOutOfRange
    | FileSizeFieldOutOfBounds

  datatype Outcome = Written(bytes: seq<byte>) | Skipped(why: Skip) | Threw(fault: Fault)

  /** A loop point as passed to `SetLoop`: left out, or a time in seconds. */
  datatype Position = Omitted | Seconds(seconds: real)

  /** The sample rate sits 12 bytes after the start of the "fmt " id: id (4),
      chunk size (4), format tag (2), channel count (2). */
  const RATE_AFTER_ID: nat := 12

  /** Where the sample rate is read: 12 bytes past the first "fmt " window,
      or `None` when the forward scan finds no such window. */
  function SampleRateOffset(buf: seq<byte>): (r: Option<nat>)
    ensures r.None? <==> forall i :: 0 <= i < |buf| - 4 ==> !MatchAt(buf, i, FMT)
    ensures r.Some? ==> r.value >= RATE_AFTER_ID && IsFirst(buf, r.value - RATE_AFTER_ID, FMT)
  {
    match FindFirst(buf, FMT)
    case None => None
    case Some(i) => FindFirstIsFirst(buf, FMT, i); Some(i + RATE_AFTER_ID)
  }

  /** The loop start in samples: 0 when omitted, otherwise the whole number
      of samples in `start` seconds at `rate`, rounded down. */
  function StartSample(rate: int, start: Position): (r: int)
    ensures start.Omitted? ==> r == 0
    ensures start.Seconds? ==> r as real <= rate as real * start.seconds < r as real + 1.0
  {
    match start
    case Omitted => 0
    case Seconds(s) => (rate as real * s).Floor
  }

  /** The loop end in samples: the last sample index (`sampleCount - 1`) when
      omitted, otherwise `end` seconds at `rate`, rounded down. */
  function EndSample(rate: int, end: Position, sampleCount: int): (r: int)
    ensures end.Omitted? ==> r == sampleCount - 1
    ensures end.Seconds? ==> r as real <= rate as real * end.seconds < r as real + 1.0
  {
    match end
    case Omitted => sampleCount - 1
    case Seconds(s) => (rate as real * s).Floor
  }

  /** The end of the span removed with a `smpl` id at `k`: its declared size
      plus the 8 header bytes, cut short at the end of the buffer. */
  function SpanEnd(buf: seq<byte>, k: nat): (e: nat)
    requires k + 8 <= |buf|
    ensures k + 8 <= e <= |buf|
    ensures e < |buf| ==> e == k + 8 + DecodeU32(buf[k + 4..k + 8])
    ensures e == |buf| ==> k + 8 + DecodeU32(buf[k + 4..k + 8]) >= |buf|
  {
    var size := DecodeU32(buf[k + 4..k + 8]);
    if k + 8 + size < |buf| then k + 8 + size else |buf|
  }

  /** Removing the last "smpl" window and the span its size field declares;
      `None` where reading that size field throws. */
  function RemoveSmpl(buf: seq<byte>): (r: Option<seq<byte>>)
    ensures FindLast(buf, SMPL).None? ==> r == Some(buf)
    ensures FindLast(buf, SMPL).Some? ==>
      var k := FindLast(buf, SMPL).value;
      && (r.None? <==> |buf| < k + 8)
      && (r.Some? ==>
        && |r.value| == |buf| - (SpanEnd(buf, k) - k)
        && r.value[..k] == buf[..k]
        && r.value[k..] == buf[SpanEnd(buf, k)..])
  {
    match FindLast(buf, SMPL)
    case None => Some(buf)
    case Some(k) =>
      match ReadU32(buf, k + 4)
      case None => None
      case Some(size) =>
        DecodeEncode(size);
        var rest := if k + 8 + size < |buf| then buf[k + 8 + size..] else [];
        assert rest == buf[SpanEnd(buf, k)..];
        Some(buf[..k] + rest)
  }

  /** The removal in terms of the windows themselves: with no "smpl" window
      at or below `|buf| - 5` the input is kept; with the last one at `k`,
      the size read throws exactly when `k + 8` passes the end, and otherwise
      the bytes before `k` and after the declared span keep their order. */
  lemma RemovesLastSmpl(buf: seq<byte>, k: nat)
    requires IsLast(buf, k, SMPL)
    ensures RemoveSmpl(buf).None? <==> |buf| < k + 8
    ensures RemoveSmpl(buf).Some? ==>
      && |RemoveSmpl(buf).value| == |buf| - (SpanEnd(buf, k) - k)
      && RemoveSmpl(buf).value[..k] == buf[..k]
      && RemoveSmpl(buf).value[k..] == buf[SpanEnd(buf, k)..]
  {
    FindLastIsLast(buf, SMPL, k);
  }

  /** With no "smpl" window where the backward loop looks, nothing is removed. */
  lemma KeepsWithoutSmpl(buf: seq<byte>)
    requires forall j :: 0 <= j <= |buf| - 5 ==> !MatchAt(buf, j, SMPL)
    ensures RemoveSmpl(buf) == Some(buf)
  {
  }

  /** Writing the new length minus 8 into the four bytes after the first
      "RIFF" window. */
  function PatchRiffSize(buf: seq<byte>): (r: Outcome)
    ensures r == Skipped(NoRiffHeader) <==> forall i :: 0 <= i < |buf| - 4 ==> !MatchAt(buf, i, RIFF)
    ensures r.Skipped? ==> r.why == NoRiffHeader
    ensures FindFirst(buf, RIFF).Some? ==>
      var i := FindFirst(buf, RIFF).value;
      && (r == Threw(FileSizeOutOfRange) <==> !IsU32(|buf| - 8))
      && (IsU32(|buf| - 8) && |buf| < i + 8 ==> r == Threw(FileSizeFieldOutOfBounds))
      && (IsU32(|buf| - 8) && i + 8 <= |buf| ==>
        && r.Written?
        && |r.bytes| == |buf|
        && DecodeU32(r.bytes[i + 4..i + 8]) == |buf| - 8
        && forall j :: 0 <= j < |buf| && !(i + 4 <= j < i + 8) ==> r.bytes[j] == buf[j])
  {
    match FindFirst(buf, RIFF)
    case None => Skipped(NoRiffHeader)
    case Some(i) =>
      if !IsU32(|buf| - 8) then Threw(FileSizeOutOfRange)
      else if i + 8 > |buf| then Threw(FileSizeFieldOutOfBounds)
      else Written(WriteU32(buf, i + 4, |buf| - 8))
  }

  /** Lines 284-328 for loop points already in samples: drop the old sampler
      chunk, append the new one, fix the RIFF size field. */
  function Rewrite(buf: seq<byte>, start: int, end: int): (r: Outcome)
    ensures r != Threw(FileSizeFieldOutOfBounds)
    ensures r.Skipped? ==> r.why == NoRiffHeader
    ensures r == Threw(SmplSizeOutOfBounds) <==> RemoveSmpl(buf).None?
    ensures RemoveSmpl(buf).Some? && !IsU32(start) ==> r == Threw(StartOutOfRange)
    ensures RemoveSmpl(buf).Some? && IsU32(start) && !IsU32(end) ==> r == Threw(EndOutOfRange)
    ensures r.Written? ==>
      && IsU32(start) && IsU32(end)
      && RemoveSmpl(buf).Some?
      && |r.bytes| == |RemoveSmpl(buf).value| + SamplerChunk.CHUNK_LENGTH
      && RiffSizeConsistent(r.bytes)
  {
    match RemoveSmpl(buf)
    case None => Threw(SmplSizeOutOfBounds)
    case Some(trimmed) =>
      if !IsU32(start) then Threw(StartOutOfRange)
      else if !IsU32(end) then Threw(EndOutOfRange)
      else
        AppendedPatch(trimmed, start, end);
        PatchRiffSize(trimmed + SamplerChunk.Build(start, end))
  }

  /** The size patch on a buffer that ends in a freshly built chunk never
      runs out of room, and what it writes is consistent. */
  lemma AppendedPatch(trimmed: seq<byte>, start: int, end: int)
    requires IsU32(start) && IsU32(end)
    ensures
      var grown := trimmed + SamplerChunk.Build(start, end);
      var r := PatchRiffSize(grown);
      && r != Threw(FileSizeFieldOutOfBounds)
      && (r.Written? ==> |r.bytes| == |grown| && RiffSizeConsistent(r.bytes))
  {
    var grown := trimmed + SamplerChunk.Build(start, end);
    var r := PatchRiffSize(grown);
    match FindFirst(grown, RIFF)
    case None =>
    case Some(i) =>
      FindFirstIsFirst(grown, RIFF, i);
      PatchLands(trimmed, start, end);
      if r.Written? {
        FindFirstStable(grown, r.bytes, RIFF, i, i + 4);
      }
  }

  /** The RIFF size field, found the way `SetLoop` finds it, holds the
      buffer's length minus 8. */
  predicate RiffSizeConsistent(buf: seq<byte>) {
    match FindFirst(buf, RIFF)
    case None => false
    case Some(i) => i + 8 <= |buf| && DecodeU32(buf[i + 4..i + 8]) == |buf| - 8
  }

  /** After the chunk is appended, the first "RIFF" window (if any) starts at
      least 8 bytes before the end, because the chunk ends in zero bytes; so
      the size write is always in bounds. */
  lemma PatchLands(trimmed: seq<byte>, start: int, end: int)
    requires IsU32(start) && IsU32(end)
    ensures forall i :: IsFirst(trimmed + SamplerChunk.Build(start, end), i, RIFF) ==>
      i + 8 <= |trimmed| + SamplerChunk.CHUNK_LENGTH
  {
    var c := SamplerChunk.Build(start, end);
    var grown := trimmed + c;
    forall i | IsFirst(grown, i, RIFF)
      ensures i + 8 <= |grown|
    {
      if i + 8 > |grown| {
        var j := i - |trimmed|;
        assert grown[i..i + 4] == c[j..j + 4];
        SamplerChunk.TailHasNoRiff(start, end, j);
      }
    }
  }

  /** The whole transform. `sampleCount` is what the sample-count query on
      the input file reports; it is consulted only when `end` is omitted. */
  function SetLoop(buf: seq<byte>, start: Position, end: Position, sampleCount: int): (r: Outcome)
    ensures r == Skipped(NoFormatChunk) <==> forall i :: 0 <= i < |buf| - 4 ==> !MatchAt(buf, i, FMT)
    ensures r != Threw(FileSizeFieldOutOfBounds)
    ensures r.Written? ==> RiffSizeConsistent(r.bytes)
  {
    match SampleRateOffset(buf)
    case None => Skipped(NoFormatChunk)
    case Some(off) =>
      match ReadU32(buf, off)
      case None => Threw(SampleRateOutOfBounds)
      case Some(rate) =>
        Rewrite(buf, StartSample(rate, start), EndSample(rate, end, sampleCount))
  }
}

=== FILE: set_loop_properties.dfy ===
/** What `SetLoop` does to a file, stated across its steps: where the sample
    rate comes from, what the output looks like with and without an earlier
    sampler chunk, and that a second run with the same loop points changes
    nothing. */
module WaveLoopProperties {

  import opened Wrappers
  import opened Bytes
  import opened Scan
  import opened WaveLoop
  import SamplerChunk

  /** The sample rate is the little-endian value 12 bytes after the first
      "fmt " window; if those bytes run past the end, the read throws. */
  lemma ReadsFirstFormatChunk(buf: seq<byte>, i: nat, start: Position, end: Position, n: int)
    requires IsFirst(buf, i, FMT)
    ensures |buf| < i + 16 ==> SetLoop(buf, start, end, n) == Threw(SampleRateOutOfBounds)
    ensures i + 16 <= |buf| ==>
      var rate := DecodeU32(buf[i + 12..i + 16]);
      SetLoop(buf, start, end, n) == Rewrite(buf, StartSample(rate, start), EndSample(rate, end, n))
  {
    FindFirstIsFirst(buf, FMT, i);
    if i + 16 <= |buf| {
      var rate := ReadU32(buf, i + 12).value;
      DecodeEncode(rate);
    }
  }

  /** With "RIFF" at offset 0 surviving the removal, the output is the
      trimmed input with its bytes 4 to 7 replaced by the new length minus 8
      and the new chunk appended. */
  lemma RewriteShape(buf: seq<byte>, trimmed: seq<byte>, start: int, end: int)
    requires RemoveSmpl(buf) == Some(trimmed)
    requires 8 <= |trimmed| && MatchAt(trimmed, 0, RIFF)
    requires IsU32(start) && IsU32(end) && IsU32(|trimmed| + (SamplerChunk.CHUNK_LENGTH - 8))
    ensures Rewrite(buf, start, end) ==
      Written(trimmed[..4] + EncodeU32(|trimmed| + (SamplerChunk.CHUNK_LENGTH - 8)) + trimmed[8..] + SamplerChunk.Build(start, end))
  {
    var c := SamplerChunk.Build(start, end);
    var grown := trimmed + c;
    assert Rewrite(buf, start, end) == PatchRiffSize(grown) by {
      RewriteAppends(buf, trimmed, start, end);
    }
    assert MatchAt(grown, 0, RIFF) by {
      assert grown[..4] == trimmed[..4];
    }
    assert PatchRiffSize(grown) == Written(grown[..4] + EncodeU32(|grown| - 8) + grown[8..]) by {
      PatchesHeader(grown);
    }
    assert grown[..4] + EncodeU32(|grown| - 8) + grown[8..]
        == trimmed[..4] + EncodeU32(|trimmed| + (SamplerChunk.CHUNK_LENGTH - 8)) + trimmed[8..] + c by {
      assert grown[..4] == trimmed[..4];
      assert grown[8..] == trimmed[8..] + c;
    }
  }

  /** Once the old chunk is removed and the loop points are in range, the
      outcome is that of the size patch on the trimmed input plus the chunk. */
  lemma RewriteAppends(buf: seq<byte>, trimmed: seq<byte>, start: int, end: int)
    requires RemoveSmpl(buf) == Some(trimmed)
    requires IsU32(start) && IsU32(end)
    ensures Rewrite(buf, start, end) == PatchRiffSize(trimmed + SamplerChunk.Build(start, end))
  {
  }

  /** A file that starts with "RIFF" and has no "smpl" window: the output is
      the input with the new chunk appended and the RIFF size field set to
      the new length minus 8; it is exactly 68 bytes longer. */
  lemma AppendsWhenNoSmpl(buf: seq<byte>, start: int, end: int)
    requires 8 <= |buf| && MatchAt(buf, 0, RIFF)
    requires forall j :: 0 <= j <= |buf| - 5 ==> !MatchAt(buf, j, SMPL)
    requires IsU32(start) && IsU32(end) && IsU32(|buf| + (SamplerChunk.CHUNK_LENGTH - 8))
    ensures Rewrite(buf, start, end) ==
      Written(buf[..4] + EncodeU32(|buf| + (SamplerChunk.CHUNK_LENGTH - 8)) + buf[8..] + SamplerChunk.Build(start, end))
    ensures |Rewrite(buf, start, end).bytes| == |buf| + SamplerChunk.CHUNK_LENGTH
  {
    KeepsWithoutSmpl(buf);
    RewriteShape(buf, buf, start, end);
  }

  /** A file that starts with "RIFF" and whose last "smpl" window is at
      `k` (past the 8-byte header): bytes `k` up to the end of the declared
      span are dropped, the rest keeps its order, the new chunk goes at the
      end and the RIFF size field is set. */
  lemma ReplacesLastSmpl(buf: seq<byte>, k: nat, start: int, end: int)
    requires MatchAt(buf, 0, RIFF) && IsLast(buf, k, SMPL) && 8 <= k && k + 8 <= |buf|
    requires IsU32(start) && IsU32(end)
    requires IsU32(|buf| - (SpanEnd(buf, k) - k) + (SamplerChunk.CHUNK_LENGTH - 8))
    ensures
      var kept := buf[8..k] + buf[SpanEnd(buf, k)..];
      Rewrite(buf, start, end) ==
        Written(buf[..4] + EncodeU32(8 + |kept| + (SamplerChunk.CHUNK_LENGTH - 8)) + kept + SamplerChunk.Build(start, end))
  {
    var e := SpanEnd(buf, k);
    var trimmed := buf[..k] + buf[e..];
    assert RemoveSmpl(buf) == Some(trimmed) by {
      RemovesLastSmpl(buf, k);
      var v := RemoveSmpl(buf).value;
      assert v == v[..k] + v[k..];
    }
    var kept := buf[8..k] + buf[e..];
    SpliceKeepsHeader(buf, trimmed, k, e);
    assert |trimmed| == 8 + |kept|;
    RewriteShape(buf, trimmed, start, end);
  }

  /** Cutting `buf[k..e]` out at or after offset 8 leaves the first 8 bytes
      in place and the rest after them in order. */
  lemma SpliceKeepsHeader(buf: seq<byte>, trimmed: seq<byte>, k: nat, e: nat)
    requires 8 <= k <= e <= |buf| && k <= |trimmed|
    requires trimmed[..k] == buf[..k] && trimmed[k..] == buf[e..]
    ensures 8 <= |trimmed| && trimmed[..4] == buf[..4] && trimmed[..8] == buf[..8]
    ensures trimmed[8..] == buf[8..k] + buf[e..]
  {
    assert trimmed[..8] == trimmed[..k][..8];
    assert buf[..8] == buf[..k][..8];
    assert trimmed[..4] == trimmed[..k][..4];
    assert buf[..4] == buf[..k][..4];
    assert trimmed[8..] == trimmed[..k][8..] + trimmed[k..];
    assert buf[8..k] == buf[..k][8..];
  }

  /** With "RIFF" at offset 0, the size write lands on bytes 4 to 7. */
  lemma PatchesHeader(buf: seq<byte>)
    requires 8 <= |buf| && MatchAt(buf, 0, RIFF) && IsU32(|buf| - 8)
    ensures PatchRiffSize(buf) == Written(buf[..4] + EncodeU32(|buf| - 8) + buf[8..])
  {
    FindFirstIsFirst(buf, RIFF, 0);
    var want := buf[..4] + EncodeU32(|buf| - 8) + buf[8..];
    var got := PatchRiffSize(buf).bytes;
    EncodeDecode(got[4..8]);
    assert got[4..8] == want[4..8];
    assert got == want;
  }

  /** The appended chunk holds no "smpl" window other than its own id. */
  ghost predicate OwnIdOnly(start: int, end: int)
    requires IsU32(start) && IsU32(end)
  {
    forall j :: 0 < j ==> !MatchAt(SamplerChunk.Build(start, end), j, SMPL)
  }

  /** Loop points below 2^24 (over six minutes at 44.1 kHz) leave a zero in
      the top byte of each field, which no "smpl" window can straddle. */
  lemma SmallLoopPointsOwnIdOnly(start: int, end: int)
    requires 0 <= start < 0x100_0000 && 0 <= end < 0x100_0000
    ensures OwnIdOnly(start, end)
  {
    var c := SamplerChunk.Build(start, end);
    SamplerChunk.UnwrittenBytesZero(start, end);
    assert c[55] == 0 by { assert DecodeU32(c[52..56]) == start; }
    assert c[59] == 0 by { assert DecodeU32(c[56..60]) == end; }
    assert c[4..8] == EncodeU32(60) by { EncodeDecode(c[4..8]); }
    assert c[20..24] == EncodeU32(60) by { EncodeDecode(c[20..24]); }
    assert c[36..40] == EncodeU32(1) by { EncodeDecode(c[36..40]); }
    forall j | 0 < j
      ensures !MatchAt(c, j, SMPL)
    {
      if j + 4 <= |c| {
        assert c[j..j + 4][0] == c[j];
        assert c[j..j + 4][1] == c[j + 1];
        assert c[j..j + 4][2] == c[j + 2];
        assert c[j..j + 4][3] == c[j + 3];
        assert !SamplerChunk.IsFieldByte(j) || !SamplerChunk.IsFieldByte(j + 1)
          || !SamplerChunk.IsFieldByte(j + 2) || !SamplerChunk.IsFieldByte(j + 3)
          || c[j] != 0x73 || c[j + 1] != 0x6D || c[j + 2] != 0x70 || c[j + 3] != 0x6C;
      }
    }
  }

  /** Removing the old chunk from a file that starts with "RIFF" keeps the
      8-byte header when no "smpl" window starts inside it. */
  lemma TrimKeepsHeader(buf: seq<byte>)
    requires 8 <= |buf| && MatchAt(buf, 0, RIFF)
    requires forall j :: 4 <= j < 8 ==> !MatchAt(buf, j, SMPL)
    requires RemoveSmpl(buf).Some?
    ensures 8 <= |RemoveSmpl(buf).value| && MatchAt(RemoveSmpl(buf).value, 0, RIFF)
  {
    var trimmed := RemoveSmpl(buf).value;
    match FindLast(buf, SMPL)
    case None =>
    case Some(k) =>
      FindLastIsLast(buf, SMPL, k);
      RemovesLastSmpl(buf, k);
      assert buf[k..k + 4][0] == buf[k] == 0x73;
      assert buf[..4][1] == 0x49 && buf[..4][2] == 0x46 && buf[..4][3] == 0x46;
      assert 8 <= k;
      assert trimmed[..k] == buf[..k];
      assert trimmed[..4] == trimmed[..k][..4];
      assert buf[..4] == buf[..k][..4];
  }

  /** A buffer that ends in a freshly built chunk: that chunk's id is the
      last "smpl" window, and removing it leaves exactly what came before. */
  lemma OwnChunkRemoved(head: seq<byte>, start: int, end: int)
    requires IsU32(start) && IsU32(end) && OwnIdOnly(start, end)
    ensures RemoveSmpl(head + SamplerChunk.Build(start, end)) == Some(head)
  {
    var c := SamplerChunk.Build(start, end);
    var out := head + c;
    var m := |head|;
    assert IsLast(out, m, SMPL) by {
      assert out[m..m + 4] == c[0..4];
      forall j | m < j <= |out| - 5
        ensures !MatchAt(out, j, SMPL)
      {
        assert out[j..j + 4] == c[j - m..j - m + 4];
        assert !MatchAt(c, j - m, SMPL);
      }
    }
    assert SpanEnd(out, m) == |out| by {
      SamplerChunk.SizeFieldReadsBack(start, end);
      assert out[m + 4..m + 8] == c[4..8];
    }
    assert RemoveSmpl(out) == Some(head) by {
      RemovesLastSmpl(out, m);
      var v := RemoveSmpl(out).value;
      assert v == v[..m];
    }
  }

  /** Rewriting a rewritten file with the same loop points gives it back
      unchanged: the chunk appended last time is the last "smpl" window,
      its size field covers exactly its 68 bytes, and the RIFF size field
      already holds the right value. */
  lemma RewriteIdempotent(buf: seq<byte>, start: int, end: int)
    requires 8 <= |buf| && MatchAt(buf, 0, RIFF)
    requires forall j :: 4 <= j < 8 ==> !MatchAt(buf, j, SMPL)
    requires IsU32(start) && IsU32(end) && OwnIdOnly(start, end)
    requires RemoveSmpl(buf).Some? && IsU32(|RemoveSmpl(buf).value| + (SamplerChunk.CHUNK_LENGTH - 8))
    ensures Rewrite(buf, start, end).Written?
    ensures Rewrite(Rewrite(buf, start, end).bytes, start, end) == Rewrite(buf, start, end)
  {
    TrimKeepsHeader(buf);
    var trimmed := RemoveSmpl(buf).value;
    RewriteShape(buf, trimmed, start, end);
    var head := trimmed[..4] + EncodeU32(|trimmed| + (SamplerChunk.CHUNK_LENGTH - 8)) + trimmed[8..];
    RewriteTwice(head, trimmed, start, end);
  }

  /** The second run sees `head` followed by the chunk, where `head` is the
      trimmed input with its size field already set: it removes the chunk,
      appends it again and writes the size that is already there. */
  lemma RewriteTwice(head: seq<byte>, trimmed: seq<byte>, start: int, end: int)
    requires 8 <= |trimmed| && MatchAt(trimmed, 0, RIFF)
    requires IsU32(start) && IsU32(end) && OwnIdOnly(start, end)
    requires IsU32(|trimmed| + (SamplerChunk.CHUNK_LENGTH - 8))
    requires head == trimmed[..4] + EncodeU32(|trimmed| + (SamplerChunk.CHUNK_LENGTH - 8)) + trimmed[8..]
    ensures Rewrite(head + SamplerChunk.Build(start, end), start, end)
      == Written(head + SamplerChunk.Build(start, end))
  {
    var c := SamplerChunk.Build(start, end);
    assert |head| == |trimmed| && MatchAt(head, 0, RIFF) by {
      assert head[..4] == trimmed[..4];
    }
    assert head[..4] + EncodeU32(|head| + (SamplerChunk.CHUNK_LENGTH - 8)) + head[8..] == head by {
      assert head[..4] == trimmed[..4] && head[8..] == trimmed[8..];
    }
    OwnChunkRemoved(head, start, end);
    RewriteShape(head + c, head, start, end);
  }

  /** A 44.1 kHz file looped from 0.5 s to 1.5 s. */
  lemma HalfSecondExample()
    ensures StartSample(44100, Seconds(0.5)) == 22050
    ensures EndSample(44100, Seconds(1.5), 88200) == 66150
    ensures EndSample(44100, Omitted, 88200) == 88199
  {
  }
}

=== FILE: wrappers.dfy ===
/** The optional value used for the early-return and lookup paths. */
module Wrappers {

  datatype Option<+T> = None | Some(value: T)
}
